=== FILE: README.md ===
# Convention modules of the project-configuration Gradle plugin

This project models the decision logic of three convention modules of a Gradle
plugin that configures Java and Kotlin builds. The modules are:

- **SpringBootFramework** adds the Spring Boot BOM, then configures a library
  or an application. For an application it also decides on metrics, the
  actuator and native images, and it writes the managed
  `application-default.properties`.
- **CheckstyleFeature** gates on the root project and a rule set. It applies
  Checkstyle, registers `checkstyleAll`, and chooses the rules file. An unknown
  bundled rule set is an error.
- **JUnit5Feature** declares the JUnit Jupiter test dependencies, plus
  `kotlin-test` for Kotlin projects, and settles the settings of every `Test`
  task.

Each module is a pure planner. It reads an immutable context and the dependency
ledger, and returns the actions it would perform, in order:

- The **context** (`Context.Ctx`) holds the configuration flags and what the
  host build answers when probed. The host answers include whether the project
  is the root, whether a root `checkstyle.xml` exists, which rule sets are
  bundled as resources, and the subprojects with their plugins and sources.
- The **ledger** (`Ledger.Ledger`) is the append-only sequence of
  `(bucket, coordinate)` declarations made so far.
- A module's result is a `Plan`. It is either every action performed, or the
  actions performed before an error aborted the run. Nothing is rolled back.

For an application, the ledger is threaded through the two steps in source
order: `configureApplication`'s declarations are added to it before
`configDefaults` asks whether the actuator is present. The properties map
behaves like Kotlin's `mutableMapOf`, which is an insertion-ordered
`LinkedHashMap` (`PropertyMap`).

Modules: `Wrappers` (Option/Result), `PropertyMap`, `Context`, `Actions`
(actions, plans and the init/check/run lifecycle), `Ledger`,
`SpringBootFramework`, `CheckstyleFeature`, `JUnit5Feature`.

## Model

| member | source | states |
|---|---|---|
| SpringBootFramework.Module | plugin/src/main/kotlin/me/philippheuer/projectcfg/modules/framework/SpringBootFramework.kt:18-24 | The BOM platform constraint is always the first action, whatever the framework. The module does nothing else unless the framework is Spring Boot. With Spring Boot, `run`'s actions follow the BOM. |
| SpringBootFramework.Run | plugin/src/main/kotlin/me/philippheuer/projectcfg/modules/framework/SpringBootFramework.kt:26-47 | A type other than library or app changes nothing. A library declares exactly the starter (`implementation`) and starter-test (`testImplementation`) and performs no other kind of action. An app's configuration steps come first, and the properties file is written last, from the ledger those steps extended. |
| SpringBootFramework.ApplicationBaseline | plugin/src/main/kotlin/me/philippheuer/projectcfg/modules/framework/SpringBootFramework.kt:49-63 | An app first applies the Boot plugin. It declares the starter, starter-test, log4j2 starter and disruptor, and excludes `spring-boot-starter-logging` from `implementation`. |
| SpringBootFramework.ConfigureApplication | plugin/src/main/kotlin/me/philippheuer/projectcfg/modules/framework/SpringBootFramework.kt:49-96 | The fixed application steps always come first, whatever the flags. Configuring the application writes no properties file. |
| SpringBootFramework.MetricsSteps | plugin/src/main/kotlin/me/philippheuer/projectcfg/modules/framework/SpringBootFramework.kt:66-74 | With metrics off, the step declares nothing. Otherwise it only declares `implementation` dependencies, and it is a prefix of the two micrometer artifacts followed by the actuator. Both micrometer artifacts are declared if and only if metrics are on. The actuator follows if and only if metrics are on and the ledger, extended by the base steps and the micrometer artifacts, holds an `implementation` web starter. |
| SpringBootFramework.MetricsIff | plugin/src/main/kotlin/me/philippheuer/projectcfg/modules/framework/SpringBootFramework.kt:66-68 | `micrometer-core` and `micrometer-registry-prometheus` 1.8.1 are declared if and only if metrics are enabled. |
| SpringBootFramework.WebQuerySeesPriorLedger | plugin/src/main/kotlin/me/philippheuer/projectcfg/modules/framework/SpringBootFramework.kt:71 | None of the module's own earlier declarations answers the web-starter query. It answers exactly as the ledger did before the module ran. |
| SpringBootFramework.ActuatorIff | plugin/src/main/kotlin/me/philippheuer/projectcfg/modules/framework/SpringBootFramework.kt:66-73 | The actuator starter is declared if and only if metrics are on and an `implementation` web starter was already declared. |
| SpringBootFramework.NativeIff | plugin/src/main/kotlin/me/philippheuer/projectcfg/modules/framework/SpringBootFramework.kt:76-84 | The AOT plugin, the Spring release repository and `spring-native` each appear if and only if `native` is set. |
| SpringBootFramework.ActuatorThreading | plugin/src/main/kotlin/me/philippheuer/projectcfg/modules/framework/SpringBootFramework.kt:29-31 | After `configureApplication`, the ledger answers the actuator query if and only if the actuator was declared before the module ran, or metrics are on and the web starter was declared before the module ran. |
| SpringBootFramework.ExposureInclude | plugin/src/main/kotlin/me/philippheuer/projectcfg/modules/framework/SpringBootFramework.kt:180-184 | The exposed endpoints are `health,heapdump,prometheus`, with `,flyway` appended if and only if migrations are enabled. |
| SpringBootFramework.ConfigActuator | plugin/src/main/kotlin/me/philippheuer/projectcfg/modules/framework/SpringBootFramework.kt:170-191 | The actuator section has five distinct keys. |
| SpringBootFramework.WriteFreshSections | plugin/src/main/kotlin/me/philippheuer/projectcfg/modules/framework/SpringBootFramework.kt:98-113 | Sections with distinct, mutually disjoint keys are written one after another into the map and come out back to back. Nothing is overwritten or reordered. |
| SpringBootFramework.DefaultsLayout | plugin/src/main/kotlin/me/philippheuer/projectcfg/modules/framework/SpringBootFramework.kt:98-113 | The defaults are the logging, web and graceful-exit keys, then the actuator keys when the ledger holds the actuator, then the migration keys when migrations are on. All keys are distinct, and the size is 19 + 5·[actuator] + 3·[dbMigrate]. |
| SpringBootFramework.DefaultsContent | plugin/src/main/kotlin/me/philippheuer/projectcfg/modules/framework/SpringBootFramework.kt:98-113 | `server.port` is looked up to `8080` and `server.shutdown` to `graceful`. `management.server.port` is present if and only if the ledger holds the actuator. When present, it is looked up to `8081`, and `management.endpoints.web.exposure.include` to `health,heapdump,prometheus`, with `,flyway` when migrations are on. `spring.flyway.locations` is present if and only if migrations are on. |
| SpringBootFramework.ApplicationDefaults | plugin/src/main/kotlin/me/philippheuer/projectcfg/modules/framework/SpringBootFramework.kt:26-33 | For the ledger threaded through `configureApplication`, the management keys are present if and only if the actuator was declared before the module ran, or metrics are on and the web starter was declared before the module ran. In that case the management port is `8081` and the exposed endpoints are as above. The size of the map follows from that. |
| PropertyMap.Put | plugin/src/main/kotlin/me/philippheuer/projectcfg/modules/framework/SpringBootFramework.kt:101 | `properties[k] = v` makes `k` look up to `v`, leaves every other key's lookup unchanged, and grows the map only for a fresh key. |
| PropertyMap.PutAllFresh | plugin/src/main/kotlin/me/philippheuer/projectcfg/modules/framework/SpringBootFramework.kt:101-103 | Copying a map of fresh, distinct keys entry by entry appends it unchanged. |
| Ledger.HasDependencyAfter | plugin/src/main/kotlin/me/philippheuer/projectcfg/modules/framework/SpringBootFramework.kt:106 | Performing actions changes a dependency query's answer only through a declared dependency that matches it. |
| CheckstyleFeature.Module | plugin/src/main/kotlin/me/philippheuer/projectcfg/features/CheckstyleFeature.kt:76-85 | The module performs something if and only if the gate holds: the root project, and a root `checkstyle.xml` or a non-empty rule set. It aborts exactly when the rules-file choice fails, with the "not supported" message. |
| CheckstyleFeature.Run | plugin/src/main/kotlin/me/philippheuer/projectcfg/features/CheckstyleFeature.kt:80-85 | Without the gate, nothing happens. With it, the run starts with the `checkstyle` plugin, the `checkstyleAll` task and the configured tool version. A successful run ends with the report flags: XML not required, HTML required. |
| CheckstyleFeature.ApplyPluginPlan | plugin/src/main/kotlin/me/philippheuer/projectcfg/features/CheckstyleFeature.kt:16-62 | The plugin, the `checkstyleAll` registration and the tool version always come first. An error aborts with exactly those three performed. A successful run ends with the rules file and limits. |
| CheckstyleFeature.ChooseConfigFile | plugin/src/main/kotlin/me/philippheuer/projectcfg/features/CheckstyleFeature.kt:44-56 | A root `checkstyle.xml` wins. The choice fails if and only if there is no root file and a named rule set is not bundled, with "checkstyle ruleset <name> is not supported!". The default file is kept if and only if there is no root file and no rule set, with nothing written. A copy is written if and only if there is no root file and the named rule set is bundled: its exact content goes to `<buildDir>/tmp/checkstyle.xml`, which becomes the rules file. |
| CheckstyleFeature.RootConfigPrecedence | plugin/src/main/kotlin/me/philippheuer/projectcfg/features/CheckstyleFeature.kt:44-46 | With a root `checkstyle.xml`, the run cannot fail and uses that file. Changing the named rule set or the bundled resources changes nothing. |
| CheckstyleFeature.RuleSetCopied | plugin/src/main/kotlin/me/philippheuer/projectcfg/features/CheckstyleFeature.kt:46-56 | A bundled rule set gives exactly this sequence: plugin, task, tool version, verbatim copy, settings pointing at the copy, report flags. |
| CheckstyleFeature.UnsupportedRuleSetAborts | plugin/src/main/kotlin/me/philippheuer/projectcfg/features/CheckstyleFeature.kt:42-48 | An unbundled rule set aborts with the "not supported" message after the plugin, the task and the tool version. No rules file, limit or report flag is configured. |
| CheckstyleFeature.Settings | plugin/src/main/kotlin/me/philippheuer/projectcfg/features/CheckstyleFeature.kt:44-60 | The rules file is the chosen one. `maxWarnings` and `maxErrors` are 0. |
| CheckstyleFeature.NoViolationsTolerated | plugin/src/main/kotlin/me/philippheuer/projectcfg/features/CheckstyleFeature.kt:59-60 | Every Checkstyle configuration the module performs has zero tolerated warnings and errors. |
| CheckstyleFeature.SubprojectSources | plugin/src/main/kotlin/me/philippheuer/projectcfg/features/CheckstyleFeature.kt:28-34 | A source set is collected if and only if it is the main source set of a subproject with the `java` or `java-library` plugin. |
| CheckstyleFeature.SubprojectSourcesAppend | plugin/src/main/kotlin/me/philippheuer/projectcfg/features/CheckstyleFeature.kt:28-34 | Sources are collected in subproject order: collecting over two runs of subprojects gives the first run's sources, then the second's. |
| CheckstyleFeature.CheckstyleAll | plugin/src/main/kotlin/me/philippheuer/projectcfg/features/CheckstyleFeature.kt:22-37 | `checkstyleAll` is in group `verification`. Its sources are the root main sources, then exactly the Java subprojects' main sources. The classpath equals the sources. It excludes exactly `**/generated/**` and `**/internal/**`. |
| JUnit5Feature.JunitDependencies | plugin/src/main/kotlin/me/philippheuer/projectcfg/features/JUnit5Feature.kt:28-48 | The module declares exactly API and params in `testImplementation`, then the engine in `testRuntimeOnly`, all at the JUnit 5 version, then `kotlin-test` in `testImplementation` if and only if the language is Kotlin. Nothing else is declared. The engine never goes anywhere but `testRuntimeOnly`. |
| JUnit5Feature.Run | plugin/src/main/kotlin/me/philippheuer/projectcfg/features/JUnit5Feature.kt:22-72 | The dependencies come first. The test-task settings come last: JUnit platform, exceptions and standard streams shown, FULL exception format, no failure on no matching tests, and dependence on `cleanTest`. |
| JUnit5Feature.Module | plugin/src/main/kotlin/me/philippheuer/projectcfg/features/JUnit5Feature.kt:18-25 | `check` never declines, so the module always performs its run in full. |
| JUnit5Feature.EngineStaysRuntimeOnly | plugin/src/main/kotlin/me/philippheuer/projectcfg/features/JUnit5Feature.kt:37-40 | The module never makes a `testImplementation` query for the engine answer differently from before it ran. |
| JUnit5Feature.KotlinTestThreading | plugin/src/main/kotlin/me/philippheuer/projectcfg/features/JUnit5Feature.kt:42-47 | After the module ran, `testImplementation` holds `kotlin-test` if and only if it was declared before the module ran or the language is Kotlin. |

## Left out

- **Gradle plumbing** is recorded as opaque action tags, without their settings:
  - disabling the `jar` task;
  - the repository added by its URL only;
  - the `BootBuildImage` builder, buildpacks and environment;
  - lazy task registration and `configureEach`.
- **Helpers whose code is not part of this model** are `addDependency`, its differently spelled twin `addDepdenency` (treated as the same append), `applyPlugin`, `addPlatformDependency`, `DependencyUtils.hasDependency` and `PluginHelper.createOrUpdatePropertyFile`:
  - `Ledger.Matches`: `hasDependency` is modelled as an assumption. It matches an entry of a listed bucket whose coordinate starts with the queried `group:artifact`.
  - Declarations are appended without deduplication; the helpers that add them are not part of this model.
- **Managed-file reconciliation** is not modelled: block markers, merging with hand edits, drift detection and atomic writes. The model stops at the properties map handed to the file writer.
- **The orchestrator** and its module registry are not part of this model. `Actions.Lifecycle` is only the init, then run-if-check driver. The default `init` of `PluginModule` is not part of this model either, so Checkstyle and JUnit 5 are modelled with no init actions.
- **Filesystem and class-loader probes** become inputs:
  - the existence of the root `checkstyle.xml`;
  - the bundled resources, as a map from resource name to content;
  - each subproject's main source set.
  A subproject with a Java plugin whose source set lookup throws, an exception the code swallows, is modelled as a subproject with no main sources.
- **Java plugin.** The model assumes the project applies the `java` plugin. Without it, `tasks.getByName("jar")` and `configurations.getByName("implementation")` throw (SpringBootFramework.kt:58, :61), after the Boot plugin and the starters were already applied, and the unguarded lookup of the root's main sources for `checkstyleAll` (CheckstyleFeature.kt:25) fails. `SpringBootFramework.Module` is therefore always `Done`, and `Host.mainJavaSources` is always present.
- **Logging** is not modelled.
- **Gating.** Checkstyle's `check` always returns true and the gate is inside `run`; the model follows that.
- **Unset flags.** An unset `checkstyleRuleSet` is modelled as the empty string, which is what the code's `orElse("")` reads. Project types other than library and application are one `OtherType` value.
- **Versions.** Dependency versions are one immutable `Versions` value passed in. The plugin keeps them in shared mutable globals.
- SpringBootFramework.ConfigureApplication: its contract states only that the base steps come first and that no properties file is written. Which optional steps appear is stated by `MetricsIff`, `ActuatorIff` and `NativeIff`.
- SpringBootFramework.ConfigActuator: its contract states only the number of keys and that they are distinct. The values of the management port and of the exposed endpoints, as they end up in the written map, are stated by `DefaultsContent` and `ApplicationDefaults`. The other three management values are pinned only through the layout `DefaultsLayout` states.

=== FILE: actions.dfy ===
/**
 What a convention module asks of the host build. A module is a planner: it
 returns the actions it would perform, in order, instead of performing them.
 */
module Actions {
  import opened PropertyMap

  /**
   A dependency coordinate: its `group:artifact` notation and its version,
   written `group:artifact:version`.
   */
  datatype Coordinate = Coordinate(notation: string, version: string) {
    function Text(): string {
      notation + ":" + version
    }
  }

  datatype ExceptionFormat = Short | Full

  /** The settings applied to every `Test` task. */
  datatype TestTaskSettings = TestTaskSettings(
    useJUnitPlatform: bool,
    showExceptions: bool,
    showStandardStreams: bool,
    exceptionFormat: ExceptionFormat,
    failOnNoMatchingTests: bool,
    dependsOn: seq<string>)

  /** Which file Checkstyle reads its rules from. */
  datatype CheckstyleConfigFile =
    | DefaultConfigFile
    | ConfigFileAt(path: string)

  /** The rules file and limits of the `checkstyle` extension. */
  datatype CheckstyleSettings = CheckstyleSettings(
    configFile: CheckstyleConfigFile,
    maxWarnings: int,
    maxErrors: int)

  /** The aggregate `checkstyleAll` task. */
  datatype CheckstyleAllTask = CheckstyleAllTask(
    group: string,
    sources: seq<string>,
    classpath: seq<string>,
    excludes: seq<string>)

  datatype Action =
    | PlatformConstraint(platform: Coordinate)
    | AddDependency(bucket: string, coordinate: Coordinate)
    | Exclude(bucket: string, group: string, artifact: string)
    | ApplyPlugin(id: string)
    | DisableTask(name: string)
    | AddMavenRepository(url: string)
    | ConfigureBootBuildImage
    | WriteManagedProperties(path: string, properties: Properties)
    | WriteFile(path: string, content: string)
    | RegisterCheckstyleAll(task: CheckstyleAllTask)
    | SetCheckstyleToolVersion(toolVersion: string)
    | ConfigureCheckstyle(checkstyle: CheckstyleSettings)
    | ConfigureCheckstyleReports(xmlRequired: bool, htmlRequired: bool)
    | ConfigureTestTasks(test: TestTaskSettings)

  /**
   The outcome of running a module: every action it performed, or the actions
   it performed before a configuration error aborted the run. Nothing already
   performed is rolled back.
   */
  datatype Plan =
    | Done(actions: seq<Action>)
    | Aborted(performed: seq<Action>, message: string)
  {
    function Performed(): seq<Action> {
      match this
      case Done(a) => a
      case Aborted(a, _) => a
    }
  }

  /** Runs `p` after `first`; the combined plan aborts exactly when `p` does. */
  function After(first: seq<Action>, p: Plan): (r: Plan)
    ensures r.Aborted? <==> p.Aborted?
    ensures r.Aborted? ==> r.message == p.message
    ensures r.Performed() == first + p.Performed()
  {
    match p
    case Done(a) => Done(first + a)
    case Aborted(a, msg) => Aborted(first + a, msg)
  }

  /**
   The module lifecycle: `init` always runs; `run` runs only when `check`
   held.
   */
  function Lifecycle(init: seq<Action>, check: bool, run: Plan): (r: Plan)
    ensures init <= r.Performed()
    ensures !check ==> r == Done(init)
    ensures check ==> r.Performed() == init + run.Performed()
    ensures r.Aborted? <==> check && run.Aborted?
  {
    if check then After(init, run) else Done(init)
  }
}

=== FILE: checkstyle.dfy ===
/**
 The Checkstyle convention module: on the root project, and only when a rule
 set is available, it applies the `checkstyle` plugin, registers the
 aggregate `checkstyleAll` task, chooses the rules file and sets the report
 flags of every Checkstyle task.
 */
module CheckstyleFeature {
  import opened Wrappers
  import opened Context
  import opened Actions

  const CheckstylePlugin := "checkstyle"
  const CheckstyleAllGroup := "verification"
  const JavaPlugin := "java"
  const JavaLibraryPlugin := "java-library"
  const GeneratedSources := "**/generated/**"
  const InternalSources := "**/internal/**"

  /** The module never declines: all gating happens inside `run`. */
  const Check := true

  /** The `run` gate: the root project, with a root rules file or a named rule set. */
  predicate Gate(ctx: Ctx) {
    ctx.host.isRoot && (ctx.host.rootCheckstyleXmlExists || ctx.config.checkstyleRuleSet != "")
  }

  /** The rules file the project keeps next to its root build script. */
  function RootConfigPath(h: Host): string { h.rootDir + "/checkstyle.xml" }

  /** Where a bundled rule set is copied before Checkstyle reads it. */
  function CopiedConfigPath(h: Host): string { h.buildDir + "/tmp/checkstyle.xml" }

  /** The class-path resource that holds the bundled rule set `ruleSet`. */
  function ResourceName(ruleSet: string): string { "checkstyle/" + ruleSet + ".xml" }

  function UnsupportedMessage(ruleSet: string): string {
    "checkstyle ruleset " + ruleSet + " is not supported!"
  }

  /** Whether a subproject takes part in `checkstyleAll`. */
  predicate IsJavaProject(s: Subproject) {
    JavaPlugin in s.plugins || JavaLibraryPlugin in s.plugins
  }

  /** Whether `sources` is the main source set of a subproject taking part in `checkstyleAll`. */
  predicate ContributesSources(s: Subproject, sources: string) {
    IsJavaProject(s) && s.mainJavaSources == Some(sources)
  }

  /**
   The main Java sources of the Java subprojects, in subproject order; a
   subproject whose main source set cannot be found adds nothing.
   */
  function SubprojectSources(subprojects: seq<Subproject>): (r: seq<string>)
    ensures |r| <= |subprojects|
    ensures forall s :: s in r <==> exists i :: 0 <= i < |subprojects| && ContributesSources(subprojects[i], s)
  {
    if subprojects == [] then []
    else
      var head := subprojects[0];
      var rest := SubprojectSources(subprojects[1..]);
      assert forall i :: 0 < i < |subprojects| ==> subprojects[i] == subprojects[1..][i - 1];
      assert forall i :: 0 <= i < |subprojects| - 1 ==> subprojects[1..][i] == subprojects[i + 1];
      if IsJavaProject(head) && head.mainJavaSources.Some? then [head.mainJavaSources.value] + rest
      else rest
  }

  /** Collecting sources over two runs of subprojects collects the first run's, then the second's. */
  lemma {:induction false} SubprojectSourcesAppend(a: seq<Subproject>, b: seq<Subproject>)
    ensures SubprojectSources(a + b) == SubprojectSources(a) + SubprojectSources(b)
  {
    if a == [] {
      assert a + b == b;
    } else {
      assert (a + b)[0] == a[0];
      assert (a + b)[1..] == a[1..] + b;
      SubprojectSourcesAppend(a[1..], b);
    }
  }

  /** The aggregate task over the root sources and the Java subprojects' sources. */
  function CheckstyleAll(h: Host): (r: CheckstyleAllTask)
    ensures r.group == CheckstyleAllGroup
    ensures r.sources != [] && r.sources[0] == h.mainJavaSources
    ensures forall s :: s in r.sources[1..] <==> exists i :: 0 <= i < |h.subprojects| && ContributesSources(h.subprojects[i], s)
    ensures r.classpath == r.sources
    ensures GeneratedSources in r.excludes && InternalSources in r.excludes && |r.excludes| == 2
  {
    var sources := [h.mainJavaSources] + SubprojectSources(h.subprojects);
    assert sources[1..] == SubprojectSources(h.subprojects);
    CheckstyleAllTask(
      group := CheckstyleAllGroup,
      sources := sources,
      classpath := sources,
      excludes := [GeneratedSources, InternalSources])
  }

  /** A chosen rules file, with the file writes it needs first. */
  datatype ConfigChoice = ConfigChoice(writes: seq<Action>, file: CheckstyleConfigFile)

  /**
   The rules-file precedence: the root `checkstyle.xml` when it exists, else
   the named bundled rule set copied into the build directory, else
   Checkstyle's default. A named rule set that is not bundled is an error.
   */
  function ChooseConfigFile(c: Config, h: Host): (r: Result<ConfigChoice, string>)
    ensures h.rootCheckstyleXmlExists ==> r == Success(ConfigChoice([], ConfigFileAt(RootConfigPath(h))))
    ensures r.Failure? <==>
      !h.rootCheckstyleXmlExists && c.checkstyleRuleSet != "" && ResourceName(c.checkstyleRuleSet) !in h.bundledResources
    ensures r.Failure? ==> r.error == UnsupportedMessage(c.checkstyleRuleSet)
    ensures r.Success? && r.value.file == DefaultConfigFile ==>
      !h.rootCheckstyleXmlExists && c.checkstyleRuleSet == ""
    ensures r.Success? && r.value.writes != [] ==>
      var name := ResourceName(c.checkstyleRuleSet);
      && name in h.bundledResources
      && r.value.writes == [WriteFile(CopiedConfigPath(h), h.bundledResources[name])]
      && r.value.file == ConfigFileAt(CopiedConfigPath(h))
    ensures (!h.rootCheckstyleXmlExists && c.checkstyleRuleSet != ""
      && ResourceName(c.checkstyleRuleSet) in h.bundledResources) ==>
      r == Success(ConfigChoice(
        [WriteFile(CopiedConfigPath(h), h.bundledResources[ResourceName(c.checkstyleRuleSet)])],
        ConfigFileAt(CopiedConfigPath(h))))
    ensures !h.rootCheckstyleXmlExists && c.checkstyleRuleSet == "" ==>
      r == Success(ConfigChoice([], DefaultConfigFile))
  {
    if h.rootCheckstyleXmlExists then
      Success(ConfigChoice([], ConfigFileAt(RootConfigPath(h))))
    else if c.checkstyleRuleSet != "" then
      var name := ResourceName(c.checkstyleRuleSet);
      if name in h.bundledResources then
        var target := CopiedConfigPath(h);
        Success(ConfigChoice([WriteFile(target, h.bundledResources[name])], ConfigFileAt(target)))
      else
        Failure(UnsupportedMessage(c.checkstyleRuleSet))
    else
      Success(ConfigChoice([], DefaultConfigFile))
  }

  /** The extension settings for a chosen rules file: no warning and no error is tolerated. */
  function Settings(file: CheckstyleConfigFile): (r: CheckstyleSettings)
    ensures r.maxWarnings == 0 && r.maxErrors == 0
    ensures r.configFile == file
  {
    CheckstyleSettings(file, 0, 0)
  }

  /**
   What `applyPlugin` performs before it chooses the rules file: the plugin,
   the aggregate task, and the configured tool version.
   */
  function Preamble(ctx: Ctx): seq<Action> {
    [ ApplyPlugin(CheckstylePlugin),
      RegisterCheckstyleAll(CheckstyleAll(ctx.host)),
      SetCheckstyleToolVersion(ctx.config.checkstyleToolVersion) ]
  }

  /**
   `applyPlugin`: the plugin, the aggregate task and the tool version come
   first, so an unsupported rule set aborts after all three were performed.
   */
  function ApplyPluginPlan(ctx: Ctx): (r: Plan)
    ensures |r.Performed()| >= 3
    ensures r.Performed()[..3] == [
      ApplyPlugin(CheckstylePlugin),
      RegisterCheckstyleAll(CheckstyleAll(ctx.host)),
      SetCheckstyleToolVersion(ctx.config.checkstyleToolVersion)]
    ensures r.Aborted? ==> |r.performed| == 3
    ensures r.Done? ==> r.actions[|r.actions| - 1].ConfigureCheckstyle?
  {
    var registered := Preamble(ctx);
    match ChooseConfigFile(ctx.config, ctx.host)
    case Failure(message) => Aborted(registered, message)
    case Success(choice) =>
      Done(registered + choice.writes + [ConfigureCheckstyle(Settings(choice.file))])
  }

  /** `reportingSetup`: every Checkstyle task gets an HTML report and no XML report. */
  const ReportingSetup := [ConfigureCheckstyleReports(xmlRequired := false, htmlRequired := true)]

  /** `run`: nothing unless the gate holds; the reporting setup only after a successful `applyPlugin`. */
  function Run(ctx: Ctx): (r: Plan)
    ensures !Gate(ctx) ==> r == Done([])
    ensures Gate(ctx) ==> |r.Performed()| >= 3 && r.Performed()[..3] == [
      ApplyPlugin(CheckstylePlugin),
      RegisterCheckstyleAll(CheckstyleAll(ctx.host)),
      SetCheckstyleToolVersion(ctx.config.checkstyleToolVersion)]
    ensures r.Aborted? <==> Gate(ctx) && ChooseConfigFile(ctx.config, ctx.host).Failure?
    ensures r.Done? && Gate(ctx) ==> r.actions[|r.actions| - 1] == ConfigureCheckstyleReports(xmlRequired := false, htmlRequired := true)
  {
    if Gate(ctx) then
      match ApplyPluginPlan(ctx)
      case Aborted(performed, message) => Aborted(performed, message)
      case Done(actions) => Done(actions + ReportingSetup)
    else
      Done([])
  }

  /** The module lifecycle: no `init` actions, and `run` always runs. */
  function Module(ctx: Ctx): (r: Plan)
    ensures r.Performed() == [] <==> !Gate(ctx)
    ensures r.Aborted? <==> Gate(ctx) && ChooseConfigFile(ctx.config, ctx.host).Failure?
    ensures r.Aborted? ==> r.message == UnsupportedMessage(ctx.config.checkstyleRuleSet)
  {
    Lifecycle([], Check, Run(ctx))
  }

  /**
   An existing root `checkstyle.xml` wins over any named rule set: the run
   cannot fail, and it configures the same rules file whatever rule set is
   named and whatever resources are bundled.
   */
  lemma RootConfigPrecedence(ctx: Ctx, ruleSet: string, resources: map<string, string>)
    requires ctx.host.isRoot && ctx.host.rootCheckstyleXmlExists
    ensures var other := Ctx(ctx.config.(checkstyleRuleSet := ruleSet), ctx.host.(bundledResources := resources));
      && Run(ctx).Done?
      && Run(ctx) == Run(other)
      && ConfigureCheckstyle(Settings(ConfigFileAt(RootConfigPath(ctx.host)))) in Run(ctx).actions
  {
    var r := Run(ctx);
    var a := ConfigureCheckstyle(Settings(ConfigFileAt(RootConfigPath(ctx.host))));
    assert r.actions == Preamble(ctx) + [a] + ReportingSetup;
    assert r.actions[3] == a;
  }

  /**
   A bundled rule set is copied verbatim into the build directory, and the
   copy is the rules file Checkstyle is pointed at.
   */
  lemma RuleSetCopied(ctx: Ctx)
    requires ctx.host.isRoot && !ctx.host.rootCheckstyleXmlExists && ctx.config.checkstyleRuleSet != ""
    requires ResourceName(ctx.config.checkstyleRuleSet) in ctx.host.bundledResources
    ensures var h := ctx.host;
      var content := h.bundledResources[ResourceName(ctx.config.checkstyleRuleSet)];
      Run(ctx) == Done([
        ApplyPlugin(CheckstylePlugin),
        RegisterCheckstyleAll(CheckstyleAll(h)),
        SetCheckstyleToolVersion(ctx.config.checkstyleToolVersion),
        WriteFile(CopiedConfigPath(h), content),
        ConfigureCheckstyle(Settings(ConfigFileAt(CopiedConfigPath(h)))),
        ConfigureCheckstyleReports(false, true)])
  {
  }

  /**
   A named rule set that is not bundled aborts the run after the plugin, the
   aggregate task and the tool version, before any rules file, limit or
   report flag is configured.
   */
  lemma UnsupportedRuleSetAborts(ctx: Ctx)
    requires ctx.host.isRoot && !ctx.host.rootCheckstyleXmlExists && ctx.config.checkstyleRuleSet != ""
    requires ResourceName(ctx.config.checkstyleRuleSet) !in ctx.host.bundledResources
    ensures Run(ctx) == Aborted(
      [ ApplyPlugin(CheckstylePlugin),
        RegisterCheckstyleAll(CheckstyleAll(ctx.host)),
        SetCheckstyleToolVersion(ctx.config.checkstyleToolVersion) ],
      UnsupportedMessage(ctx.config.checkstyleRuleSet))
  {
  }

  /** Whatever rules file is chosen, the limits are zero warnings and zero errors. */
  lemma NoViolationsTolerated(ctx: Ctx)
    ensures forall a | a in Run(ctx).Performed() && a.ConfigureCheckstyle? ::
      a.checkstyle.maxWarnings == 0 && a.checkstyle.maxErrors == 0
  {
    var r := Run(ctx);
    if Gate(ctx) {
      match ChooseConfigFile(ctx.config, ctx.host)
      case Failure(_) =>
      case Success(choice) =>
        var s := Settings(choice.file);
        assert r.Performed() == Preamble(ctx) + choice.writes + [ConfigureCheckstyle(s)] + ReportingSetup;
    }
  }
}

=== FILE: context.dfy ===
/**
 The project context every convention module reads: what the consumer
 declared about the project, and what the host build reports about it.
 Built once per project unit and never changed afterwards.
 */
module Context {
  import opened Wrappers

  datatype Language = Java | Kotlin

  /** `OtherType` stands for any project type value besides LIBRARY and APP. */
  datatype ProjectType = Library | App | OtherType

  datatype Framework = NoFramework | SpringBoot | Quarkus

  /** The declared configuration surface; an empty `checkstyleRuleSet` means "none". */
  datatype Config = Config(
    language: Language,
    projectType: ProjectType,
    framework: Framework,
    frameworkMetrics: bool,
    frameworkDbMigrate: bool,
    native: bool,
    checkstyleRuleSet: string,
    checkstyleToolVersion: string)

  /**
   A subproject as the root sees it: the plugins applied to it, and the Java
   sources of its `main` source set when that source set can be found.
   */
  datatype Subproject = Subproject(plugins: set<string>, mainJavaSources: Option<string>)

  /** What the host build and the plugin's class path answer when probed. */
  datatype Host = Host(
    isRoot: bool,
    rootDir: string,
    buildDir: string,
    rootCheckstyleXmlExists: bool,
    bundledResources: map<string, string>,
    mainJavaSources: string,
    subprojects: seq<Subproject>)

  datatype Ctx = Ctx(config: Config, host: Host)

  /** The version policy: one immutable value instead of shared mutable globals. */
  datatype Versions = Versions(
    kotlin: string,
    junit5: string,
    springBoot: string,
    springNative: string,
    disruptor: string)
}

=== FILE: junit5.dfy ===
/**
 The JUnit 5 convention module: the Jupiter test dependencies, split across
 the compile and runtime test buckets, `kotlin-test` for Kotlin projects, and
 the settings every `Test` task gets.
 */
module JUnit5Feature {
  import opened Context
  import opened Actions
  import opened Ledger

  const JupiterApiNotation := "org.junit.jupiter:junit-jupiter-api"
  const JupiterParamsNotation := "org.junit.jupiter:junit-jupiter-params"
  const JupiterEngineNotation := "org.junit.jupiter:junit-jupiter-engine"
  const KotlinTestNotation := "org.jetbrains.kotlin:kotlin-test"
  const CleanTestTask := "cleanTest"

  const TestImplementationOnly := [TestImplementation]

  function JupiterApi(v: Versions): Coordinate { Coordinate(JupiterApiNotation, v.junit5) }
  function JupiterParams(v: Versions): Coordinate { Coordinate(JupiterParamsNotation, v.junit5) }
  function JupiterEngine(v: Versions): Coordinate { Coordinate(JupiterEngineNotation, v.junit5) }
  function KotlinTest(v: Versions): Coordinate { Coordinate(KotlinTestNotation, v.kotlin) }

  /** Whether `c` is one of the three JUnit Jupiter artifacts. */
  predicate IsJupiter(c: Coordinate) {
    c.notation == JupiterApiNotation || c.notation == JupiterParamsNotation || c.notation == JupiterEngineNotation
  }

  /** The module never declines: its `check` holds for every project. */
  const Check := true

  /** The test dependencies, in declaration order. */
  function JunitDependencies(c: Config, v: Versions): (r: seq<Action>)
    ensures forall a | a in r :: a.AddDependency?
    ensures AddDependency(TestImplementation, JupiterApi(v)) in r
    ensures AddDependency(TestImplementation, JupiterParams(v)) in r
    ensures AddDependency(TestRuntimeOnly, JupiterEngine(v)) in r
    ensures forall a | a in r && a.coordinate.notation == JupiterEngineNotation :: a.bucket == TestRuntimeOnly
    ensures forall a | a in r && IsJupiter(a.coordinate) :: a.coordinate.version == v.junit5
    ensures AddDependency(TestImplementation, KotlinTest(v)) in r <==> c.language == Kotlin
    ensures Declarations(r) ==
      [ Entry(TestImplementation, JupiterApi(v).Text()),
        Entry(TestImplementation, JupiterParams(v).Text()),
        Entry(TestRuntimeOnly, JupiterEngine(v).Text()) ]
      + (if c.language == Kotlin then [Entry(TestImplementation, KotlinTest(v).Text())] else [])
  {
    var fixed := [
      AddDependency(TestImplementation, JupiterApi(v)),
      AddDependency(TestImplementation, JupiterParams(v)),
      AddDependency(TestRuntimeOnly, JupiterEngine(v)) ];
    var kotlin := if c.language == Kotlin then [AddDependency(TestImplementation, KotlinTest(v))] else [];
    FixedDeclarations(v);
    assert kotlin != [] ==> kotlin[1..] == [];
    DeclarationsAppend(fixed, kotlin);
    fixed + kotlin
  }

  /** The three Jupiter declarations, entry by entry. */
  lemma FixedDeclarations(v: Versions)
    ensures Declarations([
        AddDependency(TestImplementation, JupiterApi(v)),
        AddDependency(TestImplementation, JupiterParams(v)),
        AddDependency(TestRuntimeOnly, JupiterEngine(v)) ])
      == [ Entry(TestImplementation, JupiterApi(v).Text()),
           Entry(TestImplementation, JupiterParams(v).Text()),
           Entry(TestRuntimeOnly, JupiterEngine(v).Text()) ]
  {
    var fixed := [
      AddDependency(TestImplementation, JupiterApi(v)),
      AddDependency(TestImplementation, JupiterParams(v)),
      AddDependency(TestRuntimeOnly, JupiterEngine(v)) ];
    assert fixed[2..][1..] == [] && fixed[1..][1..] == fixed[2..];
    assert Declarations(fixed[2..]) == [Entry(TestRuntimeOnly, JupiterEngine(v).Text())];
    assert Declarations(fixed[1..]) == [Entry(TestImplementation, JupiterParams(v).Text())] + Declarations(fixed[2..]);
  }

  /** The settings applied to every `Test` task. */
  const TestSettings := TestTaskSettings(
    useJUnitPlatform := true,
    showExceptions := true,
    showStandardStreams := true,
    exceptionFormat := Full,
    failOnNoMatchingTests := false,
    dependsOn := [CleanTestTask])

  /** `run`: the dependencies, then the test-task settings. */
  function Run(c: Config, v: Versions): (r: seq<Action>)
    ensures JunitDependencies(c, v) <= r
    ensures |r| == |JunitDependencies(c, v)| + 1
    ensures r[|r| - 1].ConfigureTestTasks?
    ensures var t := r[|r| - 1].test;
      && t.useJUnitPlatform && t.showExceptions && t.showStandardStreams
      && t.exceptionFormat == Full && !t.failOnNoMatchingTests
      && CleanTestTask in t.dependsOn
  {
    JunitDependencies(c, v) + [ConfigureTestTasks(TestSettings)]
  }

  /** The module lifecycle: no `init` actions, and `run` always runs. */
  function Module(c: Config, v: Versions): (r: Plan)
    ensures r.Done?
    ensures r.actions == Run(c, v)
  {
    Lifecycle([], Check, Done(Run(c, v)))
  }

  /** The engine query differs from every other coordinate the module declares. */
  lemma EngineMisses(v: Versions)
    ensures !(JupiterEngineNotation <= JupiterApi(v).Text())
    ensures !(JupiterEngineNotation <= JupiterParams(v).Text())
    ensures !(JupiterEngineNotation <= KotlinTest(v).Text())
  {
    MissesAt(JupiterEngineNotation, JupiterApi(v), 32);  // `engine` against `api`
    MissesAt(JupiterEngineNotation, JupiterParams(v), 32);  // `engine` against `params`
    MissesAt(JupiterEngineNotation, KotlinTest(v), 5);  // `org.junit` against `org.jetbrains`
  }

  /** The `kotlin-test` query differs from every Jupiter coordinate. */
  lemma KotlinTestMisses(v: Versions)
    ensures !(KotlinTestNotation <= JupiterApi(v).Text())
    ensures !(KotlinTestNotation <= JupiterParams(v).Text())
    ensures !(KotlinTestNotation <= JupiterEngine(v).Text())
    ensures KotlinTestNotation <= KotlinTest(v).Text()
  {
    MissesAt(KotlinTestNotation, JupiterApi(v), 5);  // `org.jetbrains` against `org.junit`
    MissesAt(KotlinTestNotation, JupiterParams(v), 5);  // `org.jetbrains` against `org.junit`
    MissesAt(KotlinTestNotation, JupiterEngine(v), 5);  // `org.jetbrains` against `org.junit`
  }

  /** The runtime-only bucket is not the compile-time test bucket. */
  lemma BucketsDiffer()
    ensures TestRuntimeOnly !in TestImplementationOnly
  {
    assert TestRuntimeOnly[4] != TestImplementation[4];  // `R` against `I` after `test`
  }

  /**
   The module never makes the engine visible on the test compile class path:
   a `testImplementation` query for it answers as it did before the module ran.
   */
  lemma EngineStaysRuntimeOnly(c: Config, v: Versions, l: Ledger)
    ensures HasDependency(Declare(l, Run(c, v)), TestImplementationOnly, JupiterEngineNotation)
        <==> HasDependency(l, TestImplementationOnly, JupiterEngineNotation)
  {
    var r := Run(c, v);
    EngineMisses(v);
    BucketsDiffer();
    HasDependencyAfter(l, r, TestImplementationOnly, JupiterEngineNotation);
    forall i | 0 <= i < |r|
      ensures !DeclaresMatch(r[i], TestImplementationOnly, JupiterEngineNotation)
    {
      assert i in {0, 1, 2, 3, 4};
    }
  }

  /**
   After the module ran, the ledger holds `kotlin-test` for tests exactly when
   it was declared before the module ran or the project is written in Kotlin.
   */
  lemma KotlinTestThreading(c: Config, v: Versions, l: Ledger)
    ensures HasDependency(Declare(l, Run(c, v)), TestImplementationOnly, KotlinTestNotation)
        <==> HasDependency(l, TestImplementationOnly, KotlinTestNotation) || c.language == Kotlin
  {
    var r := Run(c, v);
    KotlinTestMisses(v);
    HasDependencyAfter(l, r, TestImplementationOnly, KotlinTestNotation);
    forall i | 0 <= i < |r|
      ensures DeclaresMatch(r[i], TestImplementationOnly, KotlinTestNotation) <==> i == 3 && c.language == Kotlin
    {
      assert i in {0, 1, 2, 3, 4};
    }
  }
}

=== FILE: ledger.dfy ===
/**
 The dependency ledger: every `(bucket, coordinate)` declaration made so far,
 in order, including the ones the build script made before any convention
 module ran. Declarations are only ever appended.
 */
module Ledger {
  import opened Actions

  const Implementation := "implementation"
  const TestImplementation := "testImplementation"
  const TestRuntimeOnly := "testRuntimeOnly"

  /** One declaration, its coordinate as the build script would write it. */
  datatype Entry = Entry(bucket: string, coordinate: string)

  type Ledger = seq<Entry>

  /** The dependencies `actions` declare, in declaration order. */
  function Declarations(actions: seq<Action>): (r: Ledger)
    ensures |r| <= |actions|
  {
    if actions == [] then []
    else
      var rest := Declarations(actions[1..]);
      match actions[0]
      case AddDependency(b, c) => [Entry(b, c.Text())] + rest
      case _ => rest
  }

  /** Declaring two runs of actions declares the first run, then the second. */
  lemma {:induction false} DeclarationsAppend(a: seq<Action>, b: seq<Action>)
    ensures Declarations(a + b) == Declarations(a) + Declarations(b)
  {
    if a == [] {
      assert a + b == b;
    } else {
      assert (a + b)[1..] == a[1..] + b;
      assert (a + b)[0] == a[0];
      DeclarationsAppend(a[1..], b);
    }
  }

  /** The ledger once `actions` have been performed on top of `l`. */
  function Declare(l: Ledger, actions: seq<Action>): (r: Ledger)
    ensures l <= r
  {
    l + Declarations(actions)
  }

  /**
   Whether `e` answers a `hasDependency(buckets, notation)` query. The
   query's implementation is not part of this model; the model assumes it
   matches an entry of one of the listed buckets whose coordinate starts with
   the queried notation.
   */
  predicate Matches(e: Entry, buckets: seq<string>, notation: string) {
    e.bucket in buckets && notation <= e.coordinate
  }

  predicate HasDependency(l: Ledger, buckets: seq<string>, notation: string) {
    exists i :: 0 <= i < |l| && Matches(l[i], buckets, notation)
  }

  /** Whether `a` declares a dependency that answers the query. */
  predicate DeclaresMatch(a: Action, buckets: seq<string>, notation: string) {
    a.AddDependency? && Matches(Entry(a.bucket, a.coordinate.Text()), buckets, notation)
  }

  /** A query over a longer ledger is answered by one of its two parts. */
  lemma HasDependencyAppend(a: Ledger, b: Ledger, buckets: seq<string>, notation: string)
    ensures HasDependency(a + b, buckets, notation)
        <==> HasDependency(a, buckets, notation) || HasDependency(b, buckets, notation)
  {
    if HasDependency(a + b, buckets, notation) {
      var i :| 0 <= i < |a + b| && Matches((a + b)[i], buckets, notation);
      if i >= |a| {
        assert b[i - |a|] == (a + b)[i];
      }
    }
    if HasDependency(a, buckets, notation) {
      var i :| 0 <= i < |a| && Matches(a[i], buckets, notation);
      assert (a + b)[i] == a[i];
    }
    if HasDependency(b, buckets, notation) {
      var i :| 0 <= i < |b| && Matches(b[i], buckets, notation);
      assert (a + b)[i + |a|] == b[i];
    }
  }

  /** The declarations of `actions` answer a query exactly when one of the actions does. */
  lemma {:induction false} DeclarationsMatch(actions: seq<Action>, buckets: seq<string>, notation: string)
    ensures HasDependency(Declarations(actions), buckets, notation)
        <==> exists i :: 0 <= i < |actions| && DeclaresMatch(actions[i], buckets, notation)
  {
    if actions != [] {
      var rest := actions[1..];
      DeclarationsMatch(rest, buckets, notation);
      var head := if actions[0].AddDependency? then [Entry(actions[0].bucket, actions[0].coordinate.Text())] else [];
      assert Declarations(actions) == head + Declarations(rest);
      HasDependencyAppend(head, Declarations(rest), buckets, notation);
      assert HasDependency(head, buckets, notation) <==> DeclaresMatch(actions[0], buckets, notation) by {
        if HasDependency(head, buckets, notation) {
          var i :| 0 <= i < |head| && Matches(head[i], buckets, notation);
        }
        if DeclaresMatch(actions[0], buckets, notation) {
          assert Matches(head[0], buckets, notation);
        }
      }
      if exists i :: 0 <= i < |actions| && DeclaresMatch(actions[i], buckets, notation) {
        var i :| 0 <= i < |actions| && DeclaresMatch(actions[i], buckets, notation);
        if i > 0 {
          assert rest[i - 1] == actions[i];
        }
      }
      if exists i :: 0 <= i < |rest| && DeclaresMatch(rest[i], buckets, notation) {
        var i :| 0 <= i < |rest| && DeclaresMatch(rest[i], buckets, notation);
        assert actions[i + 1] == rest[i];
      }
    }
  }

  /**
   Performing `actions` changes the answer to a query only through a
   dependency they declare that matches it.
   */
  lemma HasDependencyAfter(l: Ledger, actions: seq<Action>, buckets: seq<string>, notation: string)
    ensures HasDependency(Declare(l, actions), buckets, notation)
        <==> HasDependency(l, buckets, notation)
             || exists i :: 0 <= i < |actions| && DeclaresMatch(actions[i], buckets, notation)
  {
    HasDependencyAppend(l, Declarations(actions), buckets, notation);
    DeclarationsMatch(actions, buckets, notation);
  }

  /**
   A queried notation that differs, at position `i`, from `c`'s notation
   followed by its `:` separator does not match `c`, whatever `c`'s version.
   */
  lemma MissesAt(query: string, c: Coordinate, i: nat)
    requires i < |query| && i <= |c.notation|
    requires query[i] != (c.notation + ":")[i]
    ensures !(query <= c.Text())
  {
    assert c.Text()[i] == (c.notation + ":")[i];
  }
}

=== FILE: properties.dfy ===
/**
 An insertion-ordered string map, the way Kotlin's `mutableMapOf` (a
 `LinkedHashMap`) behaves: writing a fresh key appends it, writing an existing
 key replaces its value and keeps its position.
 */
module PropertyMap {
  import opened Wrappers

  datatype Property = Property(key: string, value: string)

  /** An ordered properties map; well formed maps have distinct keys. */
  type Properties = seq<Property>

  predicate HasKey(m: Properties, k: string) {
    exists i :: 0 <= i < |m| && m[i].key == k
  }

  predicate DistinctKeys(m: Properties) {
    forall i, j :: 0 <= i < j < |m| ==> m[i].key != m[j].key
  }

  /** No key of `a` is a key of `b`. */
  predicate DisjointKeys(a: Properties, b: Properties) {
    forall i, j :: 0 <= i < |a| && 0 <= j < |b| ==> a[i].key != b[j].key
  }

  /** The value stored under `k`, looked up from the front. */
  function Get(m: Properties, k: string): (r: Option<string>)
    ensures r.None? <==> !HasKey(m, k)
    ensures r.Some? ==> Property(k, r.value) in m
  {
    if m == [] then None
    else if m[0].key == k then Some(m[0].value)
    else
      assert HasKey(m, k) <==> HasKey(m[1..], k) by {
        if HasKey(m, k) {
          var i :| 0 <= i < |m| && m[i].key == k;
          assert m[1..][i - 1].key == k;
        }
        if HasKey(m[1..], k) {
          var i :| 0 <= i < |m[1..]| && m[1..][i].key == k;
          assert m[i + 1].key == k;
        }
      }
      Get(m[1..], k)
  }

  /** `m[k] = v`: replace in place when `k` is present, append otherwise. */
  function Put(m: Properties, k: string, v: string): (r: Properties)
    ensures |r| == if HasKey(m, k) then |m| else |m| + 1
    ensures Get(r, k) == Some(v)
    ensures forall k' :: k' != k ==> Get(r, k') == Get(m, k')
    decreases |m|
  {
    if m == [] then [Property(k, v)]
    else if m[0].key == k then [Property(k, v)] + m[1..]
    else
      var rest := Put(m[1..], k, v);
      assert HasKey(m, k) <==> HasKey(m[1..], k) by {
        if HasKey(m, k) {
          var i :| 0 <= i < |m| && m[i].key == k;
          assert m[1..][i - 1].key == k;
        }
        if HasKey(m[1..], k) {
          var i :| 0 <= i < |m[1..]| && m[1..][i].key == k;
          assert m[i + 1].key == k;
        }
      }
      [m[0]] + rest
  }

  /** Writing a fresh key appends exactly one entry at the end. */
  lemma {:induction false} PutFresh(m: Properties, k: string, v: string)
    requires !HasKey(m, k)
    ensures Put(m, k, v) == m + [Property(k, v)]
    decreases |m|
  {
    if m != [] {
      assert m[0].key != k;
      PutFresh(m[1..], k, v);
      assert [m[0]] + (m[1..] + [Property(k, v)]) == m + [Property(k, v)];
    }
  }

  /** `n.forEach { (k, v) -> m[k] = v }`: every entry of `n` written in order. */
  function PutAll(m: Properties, n: Properties): Properties
    decreases |n|
  {
    if n == [] then m else PutAll(Put(m, n[0].key, n[0].value), n[1..])
  }

  /**
   Writing a well formed map of fresh keys into `m` just appends it: nothing
   already in `m` is overwritten or moved.
   */
  lemma {:induction false} PutAllFresh(m: Properties, n: Properties)
    requires DistinctKeys(n)
    requires DisjointKeys(m, n)
    ensures PutAll(m, n) == m + n
    decreases |n|
  {
    if n != [] {
      var m' := m + [n[0]];
      calc {
        PutAll(m, n);
        PutAll(Put(m, n[0].key, n[0].value), n[1..]);
        { FreshHead(m, n); PutFresh(m, n[0].key, n[0].value); }
        PutAll(m', n[1..]);
        { FreshTail(m, n); DistinctTail(n); PutAllFresh(m', n[1..]); }
        m' + n[1..];
        { assert n == [n[0]] + n[1..]; }
        m + n;
      }
    }
  }

  lemma FreshHead(m: Properties, n: Properties)
    requires n != [] && DisjointKeys(m, n)
    ensures !HasKey(m, n[0].key)
  {
  }

  lemma DistinctTail(n: Properties)
    requires n != [] && DistinctKeys(n)
    ensures DistinctKeys(n[1..])
  {
    forall i, j | 0 <= i < j < |n[1..]|
      ensures n[1..][i].key != n[1..][j].key
    {
      assert n[1..][i] == n[i + 1] && n[1..][j] == n[j + 1];
    }
  }

  /** After moving the head of `n` into `m`, the rest of `n` is still fresh. */
  lemma FreshTail(m: Properties, n: Properties)
    requires n != [] && DistinctKeys(n) && DisjointKeys(m, n)
    ensures DisjointKeys(m + [n[0]], n[1..])
  {
    var m' := m + [n[0]];
    forall i, j | 0 <= i < |m'| && 0 <= j < |n[1..]|
      ensures m'[i].key != n[1..][j].key
    {
      assert n[1..][j] == n[j + 1];
      if i == |m| {
        assert m'[i] == n[0];
      } else {
        assert m'[i] == m[i];
      }
    }
  }

  /** Concatenating maps with distinct, disjoint keys keeps distinct keys. */
  lemma ConcatDistinct(a: Properties, b: Properties)
    requires DistinctKeys(a) && DistinctKeys(b) && DisjointKeys(a, b)
    ensures DistinctKeys(a + b)
  {
    forall i, j | 0 <= i < j < |a + b|
      ensures (a + b)[i].key != (a + b)[j].key
    {
      if j < |a| {
      } else if i < |a| {
        assert (a + b)[j] == b[j - |a|];
      } else {
        assert (a + b)[i] == b[i - |a|] && (a + b)[j] == b[j - |a|];
      }
    }
  }

  /** A key of a map with distinct keys is looked up to its one value. */
  lemma {:induction false} GetAt(m: Properties, i: nat)
    requires DistinctKeys(m) && i < |m|
    ensures Get(m, m[i].key) == Some(m[i].value)
  {
    if i > 0 {
      assert m[0].key != m[i].key;
      DistinctTail(m);
      assert m[1..][i - 1] == m[i];
      GetAt(m[1..], i - 1);
    }
  }

  /** A key is in a concatenation exactly when it is in one of its parts. */
  lemma HasKeyConcat(a: Properties, b: Properties, k: string)
    ensures HasKey(a + b, k) <==> HasKey(a, k) || HasKey(b, k)
  {
    if HasKey(a + b, k) {
      var i :| 0 <= i < |a + b| && (a + b)[i].key == k;
      if i >= |a| {
        assert b[i - |a|] == (a + b)[i];
      }
    }
    if HasKey(a, k) {
      var i :| 0 <= i < |a| && a[i].key == k;
      assert (a + b)[i] == a[i];
    }
    if HasKey(b, k) {
      var i :| 0 <= i < |b| && b[i].key == k;
      assert (a + b)[|a| + i] == b[i];
    }
  }
}

=== FILE: springboot.dfy ===
/**
 The Spring Boot convention module. `init` pins the Boot BOM, `check` gates on
 the declared framework, and `run` configures a library or an application;
 for an application it then generates the managed default properties, after
 the application's dependencies have been declared.
 */
module SpringBootFramework {
  import opened Wrappers
  import opened Context
  import opened Actions
  import opened Ledger
  import opened PropertyMap

  const BootGroup := "org.springframework.boot"
  const BootPlugin := "org.springframework.boot"
  const AotPlugin := "org.springframework.experimental.aot"
  const LoggingStarterArtifact := "spring-boot-starter-logging"
  const SpringReleaseRepository := "https://repo.spring.io/release"
  const PropertiesFile := "src/main/resources/application-default.properties"

  const BomNotation := "org.springframework.boot:spring-boot-dependencies"
  const StarterNotation := "org.springframework.boot:spring-boot-starter"
  const StarterTestNotation := "org.springframework.boot:spring-boot-starter-test"
  const Log4j2Notation := "org.springframework.boot:spring-boot-starter-log4j2"
  const WebStarterNotation := "org.springframework.boot:spring-boot-starter-web"
  const ActuatorNotation := "org.springframework.boot:spring-boot-starter-actuator"
  const DisruptorNotation := "com.lmax:disruptor"
  const SpringNativeNotation := "org.springframework.experimental:spring-native"

  const MicrometerCore := Coordinate("io.micrometer:micrometer-core", "1.8.1")
  const MicrometerPrometheus := Coordinate("io.micrometer:micrometer-registry-prometheus", "1.8.1")

  function Bom(v: Versions): Coordinate { Coordinate(BomNotation, v.springBoot) }
  function Starter(v: Versions): Coordinate { Coordinate(StarterNotation, v.springBoot) }
  function StarterTest(v: Versions): Coordinate { Coordinate(StarterTestNotation, v.springBoot) }
  function Log4j2(v: Versions): Coordinate { Coordinate(Log4j2Notation, v.springBoot) }
  function Actuator(v: Versions): Coordinate { Coordinate(ActuatorNotation, v.springBoot) }
  function Disruptor(v: Versions): Coordinate { Coordinate(DisruptorNotation, v.disruptor) }
  function SpringNative(v: Versions): Coordinate { Coordinate(SpringNativeNotation, v.springNative) }

  /** Queries look only at the `implementation` bucket. */
  const ImplementationOnly := [Implementation]

  // ---------------------------------------------------------------- lifecycle

  function Init(v: Versions): seq<Action> {
    [PlatformConstraint(Bom(v))]
  }

  predicate Check(c: Config) {
    c.framework == SpringBoot
  }

  function Run(c: Config, v: Versions, l: Ledger): (r: seq<Action>)
    ensures c.projectType == OtherType ==> r == []
    ensures c.projectType == Library ==>
      && Declarations(r) == [Entry(Implementation, Starter(v).Text()), Entry(TestImplementation, StarterTest(v).Text())]
      && forall a :: a in r ==> a.AddDependency?
    ensures c.projectType == App ==>
      var app := ConfigureApplication(c, v, l);
      && app <= r
      && r == app + [WriteManagedProperties(PropertiesFile, ConfigDefaults(c, Declare(l, app)))]
      && forall a :: a in app ==> !a.WriteManagedProperties?
  {
    match c.projectType
    case Library => ConfigureLibrary(v)
    case App =>
      var app := ConfigureApplication(c, v, l);
      app + [WriteManagedProperties(PropertiesFile, ConfigDefaults(c, Declare(l, app)))]
    case OtherType => []
  }

  /** The whole module: `init`, then `run` when `check` holds. */
  function Module(c: Config, v: Versions, l: Ledger): (r: Plan)
    ensures r.Done?
    ensures [PlatformConstraint(Coordinate(BomNotation, v.springBoot))] <= r.actions
    ensures c.framework != SpringBoot ==> r.actions == [PlatformConstraint(Bom(v))]
    ensures c.framework == SpringBoot ==> r.actions == [PlatformConstraint(Bom(v))] + Run(c, v, l)
  {
    Lifecycle(Init(v), Check(c), Done(Run(c, v, l)))
  }

  // ------------------------------------------------------------------ library

  function ConfigureLibrary(v: Versions): seq<Action> {
    [ AddDependency(Implementation, Starter(v)),
      AddDependency(TestImplementation, StarterTest(v)) ]
  }

  // -------------------------------------------------------------- application

  /** The steps every application gets, in source order. */
  function ApplicationBase(v: Versions): seq<Action> {
    [ ApplyPlugin(BootPlugin),
      AddDependency(Implementation, Starter(v)),
      AddDependency(TestImplementation, StarterTest(v)),
      DisableTask("jar"),
      Exclude(Implementation, BootGroup, LoggingStarterArtifact),
      AddDependency(Implementation, Log4j2(v)),
      AddDependency(Implementation, Disruptor(v)) ]
  }

  const MetricsDependencies := [
    AddDependency(Implementation, MicrometerCore),
    AddDependency(Implementation, MicrometerPrometheus) ]

  function NativeSteps(v: Versions): seq<Action> {
    [ ApplyPlugin(AotPlugin),
      AddMavenRepository(SpringReleaseRepository),
      AddDependency(Implementation, SpringNative(v)),
      ConfigureBootBuildImage ]
  }

  /**
   The metrics steps. The web-starter query sees the ledger as it stands at
   that point: everything declared before the module ran plus everything
   declared before it in this module.
   */
  function MetricsSteps(c: Config, v: Versions, l: Ledger): (r: seq<Action>)
    ensures forall a :: a in r ==> a.AddDependency? && a.bucket == Implementation
    ensures r <= MetricsDependencies + [AddDependency(Implementation, Actuator(v))]
    ensures !c.frameworkMetrics ==> r == []
    ensures c.frameworkMetrics <==> MetricsDependencies <= r
    ensures |r| == 3 <==> (c.frameworkMetrics &&
      HasDependency(Declare(l, ApplicationBase(v) + MetricsDependencies), ImplementationOnly, WebStarterNotation))
  {
    if !c.frameworkMetrics then []
    else if HasDependency(Declare(l, ApplicationBase(v) + MetricsDependencies), ImplementationOnly, WebStarterNotation)
    then MetricsDependencies + [AddDependency(Implementation, Actuator(v))]
    else MetricsDependencies
  }

  function ConfigureApplication(c: Config, v: Versions, l: Ledger): (r: seq<Action>)
    ensures ApplicationBase(v) <= r
    ensures forall a :: a in r ==> !a.WriteManagedProperties?
  {
    var base := ApplicationBase(v);
    var metrics := MetricsSteps(c, v, l);
    var native := if c.native then NativeSteps(v) else [];
    assert forall a :: a in base + native ==> !a.WriteManagedProperties?;
    base + metrics + native
  }

  // --------------------------------------------------------------- properties

  const LoggingDefaults: Properties :=
    [ Property("spring.main.banner-mode", "off"),
      Property("logging.level.root", "INFO"),
      Property("logging.pattern.console", "%d{yyyy-MM-dd HH:mm:ss} %highlight(%-5level) %logger{36} : %msg%n"),
      Property("logging.pattern.file", "%d{yyyy-MM-dd HH:mm:ss} %-5level %logger{36} : %msg%n"),
      Property("logging.charset.console", "UTF-8"),
      Property("logging.charset.file", "UTF-8") ]

  const WebDefaults: Properties :=
    [ Property("server.port", "8080"),
      Property("server.error.whitelabel.enabled", "false"),
      Property("server.http2.enabled", "true"),
      Property("server.tomcat.uri-encoding", "UTF-8"),
      Property("server.tomcat.relaxed-query-chars", "[,]"),
      Property("server.compression.enabled", "true"),
      Property("server.compression.mime-types", "text/html,text/xml,text/plain,text/css,text/javascript,application/javascript,application/json"),
      Property("server.compression.min-response-size", "1024"),
      Property("spring.web.resources.cache.cachecontrol.max-age", "120"),
      Property("spring.web.resources.cache.cachecontrol.must-revalidate", "true"),
      Property("spring.main.allow-bean-definition-overriding", "true") ]

  const GracefulExitDefaults: Properties :=
    [ Property("server.shutdown", "graceful"),
      Property("spring.lifecycle.timeout-per-shutdown-phase", "1m") ]

  /** The actuator endpoints exposed over the web. */
  function ExposedEndpoints(dbMigrate: bool): seq<string> {
    ["health", "heapdump", "prometheus"] + (if dbMigrate then ["flyway"] else [])
  }

  /** Kotlin's `joinToString(separator)`. */
  function JoinToString(xs: seq<string>, separator: string): string {
    if xs == [] then ""
    else if |xs| == 1 then xs[0]
    else xs[0] + separator + JoinToString(xs[1..], separator)
  }

  /** Five distinct keys assigned one by one into an empty map, in this order. */
  function ConfigActuator(dbMigrate: bool): (r: Properties)
    ensures |r| == 5 && DistinctKeys(r)
  {
    [ Property("management.endpoints.web.discovery.enabled", "false"),
      Property("management.server.port", "8081"),
      Property("management.endpoints.web.exposure.include", JoinToString(ExposedEndpoints(dbMigrate), ",")),
      Property("management.endpoint.health.probes.add-additional-paths", "true"),
      Property("management.endpoint.health.show-details", "always") ]
  }

  const DbMigrationDefaults: Properties :=
    [ Property("spring.flyway.baselineOnMigrate", "true"),
      Property("spring.flyway.baselineVersion", "0"),
      Property("spring.flyway.locations", "classpath:db/migration") ]

  /** The sub-maps written into the defaults, in the order they are written. */
  function DefaultSections(actuator: bool, dbMigrate: bool): seq<Properties> {
    [LoggingDefaults, WebDefaults, GracefulExitDefaults]
    + (if actuator then [ConfigActuator(dbMigrate)] else [])
    + (if dbMigrate then [DbMigrationDefaults] else [])
  }

  /** Writes every section, in order, into `m`. */
  function WriteSections(m: Properties, sections: seq<Properties>): Properties
    decreases |sections|
  {
    if sections == [] then m else WriteSections(PutAll(m, sections[0]), sections[1..])
  }

  /**
   The managed defaults: the sub-maps written one after another into an empty
   map, the actuator section only when `l` (the ledger once the application
   has been configured) holds an actuator, the migration section only when
   migrations are enabled.
   */
  function ConfigDefaults(c: Config, l: Ledger): Properties {
    var actuator := HasDependency(l, ImplementationOnly, ActuatorNotation);
    WriteSections([], DefaultSections(actuator, c.frameworkDbMigrate))
  }

  // ------------------------------------------------------------------ lemmas

  /** An application gets the Boot plugin, the log4j2 swap and its base dependencies. */
  lemma ApplicationBaseline(c: Config, v: Versions, l: Ledger)
    requires c.projectType == App
    ensures var r := Run(c, v, l);
      && r[0] == ApplyPlugin(BootPlugin)
      && Exclude(Implementation, BootGroup, LoggingStarterArtifact) in r
      && AddDependency(Implementation, Starter(v)) in r
      && AddDependency(TestImplementation, StarterTest(v)) in r
      && AddDependency(Implementation, Log4j2(v)) in r
      && AddDependency(Implementation, Disruptor(v)) in r
  {
    var r := Run(c, v, l);
    var base := ApplicationBase(v);
    assert base <= r by {
      assert base <= ConfigureApplication(c, v, l) <= r;
    }
    PrefixMembers(base, r);
  }

  /** Every member of a prefix is a member of the whole sequence. */
  lemma PrefixMembers(p: seq<Action>, r: seq<Action>)
    requires p <= r
    ensures forall a :: a in p ==> a in r
  {
    forall a | a in p ensures a in r {
      var i :| 0 <= i < |p| && p[i] == a;
      assert r[i] == a;
    }
  }

  /** The micrometer dependencies are declared exactly when metrics are enabled. */
  lemma MetricsIff(c: Config, v: Versions, l: Ledger)
    ensures var r := ConfigureApplication(c, v, l);
      && (AddDependency(Implementation, MicrometerCore) in r <==> c.frameworkMetrics)
      && (AddDependency(Implementation, MicrometerPrometheus) in r <==> c.frameworkMetrics)
  {
    var r := ConfigureApplication(c, v, l);
    assert r == ApplicationBase(v) + MetricsSteps(c, v, l) + (if c.native then NativeSteps(v) else []);
    if c.frameworkMetrics {
      assert MetricsDependencies <= MetricsSteps(c, v, l);
      assert MetricsSteps(c, v, l)[0] in r && MetricsSteps(c, v, l)[1] in r;
    }
  }

  /** The web-starter query matches none of the module's own implementation dependencies. */
  lemma WebStarterMisses(v: Versions)
    ensures !(WebStarterNotation <= Starter(v).Text())
    ensures !(WebStarterNotation <= Log4j2(v).Text())
    ensures !(WebStarterNotation <= Disruptor(v).Text())
    ensures !(WebStarterNotation <= MicrometerCore.Text())
    ensures !(WebStarterNotation <= MicrometerPrometheus.Text())
  {
    MissesAt(WebStarterNotation, Starter(v), 44);  // the starter ends in `:` where the query has `-web`
    MissesAt(WebStarterNotation, Log4j2(v), 45);  // `w` against the `l` of `-log4j2`
    MissesAt(WebStarterNotation, Disruptor(v), 18);  // `com.lmax:disruptor` ends in `:` against `k`
    MissesAt(WebStarterNotation, MicrometerCore, 29);  // `micrometer-core` ends in `:` against `n`
    MissesAt(WebStarterNotation, MicrometerPrometheus, 44);  // `-prometheus` ends in `:` against `-`
  }

  /** The actuator query matches none of the module's other implementation dependencies. */
  lemma ActuatorMisses(v: Versions)
    ensures !(ActuatorNotation <= Starter(v).Text())
    ensures !(ActuatorNotation <= Log4j2(v).Text())
    ensures !(ActuatorNotation <= Disruptor(v).Text())
    ensures !(ActuatorNotation <= MicrometerCore.Text())
    ensures !(ActuatorNotation <= MicrometerPrometheus.Text())
    ensures !(ActuatorNotation <= SpringNative(v).Text())
    ensures ActuatorNotation <= Actuator(v).Text()
  {
    MissesAt(ActuatorNotation, Starter(v), 44);  // the starter ends in `:` where the query has `-actuator`
    MissesAt(ActuatorNotation, Log4j2(v), 45);  // `a` against the `l` of `-log4j2`
    MissesAt(ActuatorNotation, Disruptor(v), 18);  // `com.lmax:disruptor` ends in `:` against `k`
    MissesAt(ActuatorNotation, MicrometerCore, 29);  // `micrometer-core` ends in `:` against `n`
    MissesAt(ActuatorNotation, MicrometerPrometheus, 44);  // `-prometheus` ends in `:` against `-`
    MissesAt(ActuatorNotation, SpringNative(v), 46);  // `spring-native` ends in `:` against `c`
  }

  /**
   Nothing the module declares before the web-starter query can answer it:
   the query sees exactly what was declared before the module ran.
   */
  lemma WebQuerySeesPriorLedger(v: Versions, l: Ledger)
    ensures HasDependency(Declare(l, ApplicationBase(v) + MetricsDependencies), ImplementationOnly, WebStarterNotation)
        <==> HasDependency(l, ImplementationOnly, WebStarterNotation)
  {
    var earlier := ApplicationBase(v) + MetricsDependencies;
    WebStarterMisses(v);
    HasDependencyAfter(l, earlier, ImplementationOnly, WebStarterNotation);
    forall i | 0 <= i < |earlier|
      ensures !DeclaresMatch(earlier[i], ImplementationOnly, WebStarterNotation)
    {
      assert i in {0, 1, 2, 3, 4, 5, 6, 7, 8};
    }
  }

  /**
   The actuator starter is declared exactly when metrics are enabled and the
   web starter was declared before the module ran.
   */
  lemma ActuatorIff(c: Config, v: Versions, l: Ledger)
    ensures AddDependency(Implementation, Actuator(v)) in ConfigureApplication(c, v, l)
        <==> c.frameworkMetrics && HasDependency(l, ImplementationOnly, WebStarterNotation)
  {
    WebQuerySeesPriorLedger(v, l);
    var r := ConfigureApplication(c, v, l);
    var metrics := MetricsSteps(c, v, l);
    var base := ApplicationBase(v);
    var native := if c.native then NativeSteps(v) else [];
    assert r == base + metrics + native;
    var a := AddDependency(Implementation, Actuator(v));
    if c.frameworkMetrics && HasDependency(l, ImplementationOnly, WebStarterNotation) {
      assert metrics[2] == a;
      assert r[|base| + 2] == a;
    } else {
      assert a !in metrics;
      assert a !in base;
      assert a !in native;
    }
  }

  /** The native-image plugin, repository and dependency come exactly with `native`. */
  lemma NativeIff(c: Config, v: Versions, l: Ledger)
    ensures var r := ConfigureApplication(c, v, l);
      && (ApplyPlugin(AotPlugin) in r <==> c.native)
      && (AddMavenRepository(SpringReleaseRepository) in r <==> c.native)
      && (AddDependency(Implementation, SpringNative(v)) in r <==> c.native)
  {
    var r := ConfigureApplication(c, v, l);
    var metrics := MetricsSteps(c, v, l);
    var base := ApplicationBase(v);
    assert r == base + metrics + (if c.native then NativeSteps(v) else []);
    if c.native {
      var n := NativeSteps(v);
      assert r[|base| + |metrics|..] == n;
      assert n[0] in r && n[1] in r && n[2] in r;
    } else {
      assert r == base + metrics;
    }
  }

  /**
   After the application has been configured, the ledger holds an actuator
   exactly when one was declared before the module ran, or the module added one.
   */
  lemma ActuatorThreading(c: Config, v: Versions, l: Ledger)
    ensures HasDependency(Declare(l, ConfigureApplication(c, v, l)), ImplementationOnly, ActuatorNotation)
        <==> HasDependency(l, ImplementationOnly, ActuatorNotation)
             || (c.frameworkMetrics && HasDependency(l, ImplementationOnly, WebStarterNotation))
  {
    var r := ConfigureApplication(c, v, l);
    var a := AddDependency(Implementation, Actuator(v));
    ActuatorIff(c, v, l);
    ActuatorMisses(v);
    HasDependencyAfter(l, r, ImplementationOnly, ActuatorNotation);
    var metrics := MetricsSteps(c, v, l);
    var base := ApplicationBase(v);
    var native := if c.native then NativeSteps(v) else [];
    assert r == base + metrics + native;
    BaseMissesActuator(v);
    NativeMissesActuator(v);
    forall i | 0 <= i < |r|
      ensures DeclaresMatch(r[i], ImplementationOnly, ActuatorNotation) ==> r[i] == a
    {
      if i < |base| {
        assert r[i] == base[i];
      } else if i < |base| + |metrics| {
        assert r[i] == metrics[i - |base|];
      } else {
        assert r[i] == native[i - |base| - |metrics|];
      }
    }
    if a in r {
      var i :| 0 <= i < |r| && r[i] == a;
      assert DeclaresMatch(r[i], ImplementationOnly, ActuatorNotation);
    }
  }

  /** None of the application's base steps declares the actuator starter. */
  lemma BaseMissesActuator(v: Versions)
    ensures forall i :: 0 <= i < |ApplicationBase(v)| ==>
      !DeclaresMatch(ApplicationBase(v)[i], ImplementationOnly, ActuatorNotation)
  {
    ActuatorMisses(v);
    var base := ApplicationBase(v);
    forall i | 0 <= i < |base|
      ensures !DeclaresMatch(base[i], ImplementationOnly, ActuatorNotation)
    {
      assert i in {0, 1, 2, 3, 4, 5, 6};
    }
  }

  /** No native-image action declares the actuator starter. */
  lemma NativeMissesActuator(v: Versions)
    ensures forall i :: 0 <= i < |NativeSteps(v)| ==>
      !DeclaresMatch(NativeSteps(v)[i], ImplementationOnly, ActuatorNotation)
  {
    ActuatorMisses(v);
    var native := NativeSteps(v);
    forall i | 0 <= i < |native|
      ensures !DeclaresMatch(native[i], ImplementationOnly, ActuatorNotation)
    {
      assert i in {0, 1, 2, 3};
    }
  }

  /** `joinToString` over one more element appends the separator and that element. */
  lemma {:induction false} JoinSnoc(xs: seq<string>, y: string, separator: string)
    requires xs != []
    ensures JoinToString(xs + [y], separator) == JoinToString(xs, separator) + separator + y
  {
    if |xs| == 1 {
      assert (xs + [y])[1..] == [y];
    } else {
      assert (xs + [y])[1..] == xs[1..] + [y];
      JoinSnoc(xs[1..], y, separator);
    }
  }

  /** The exposed endpoint list, with `flyway` exactly when migrations are enabled. */
  lemma ExposureInclude(dbMigrate: bool)
    ensures JoinToString(ExposedEndpoints(dbMigrate), ",")
         == "health,heapdump,prometheus" + (if dbMigrate then ",flyway" else "")
  {
    var base := ["health", "heapdump", "prometheus"];
    assert JoinToString(base, ",") == "health,heapdump,prometheus" by {
      assert base[1..] == ["heapdump", "prometheus"];
      assert base[1..][1..] == ["prometheus"];
    }
    if dbMigrate {
      JoinSnoc(base, "flyway", ",");
    } else {
      assert ExposedEndpoints(dbMigrate) == base;
    }
  }

  /** All sections, back to back. */
  function Flatten(sections: seq<Properties>): Properties {
    if sections == [] then [] else sections[0] + Flatten(sections[1..])
  }

  /** A map with distinct keys splits into two maps with distinct, disjoint keys. */
  lemma DistinctSplit(a: Properties, b: Properties)
    requires DistinctKeys(a + b)
    ensures DistinctKeys(a) && DistinctKeys(b) && DisjointKeys(a, b)
  {
    forall i, j | 0 <= i < |a| && 0 <= j < |b| ensures a[i].key != b[j].key {
      assert (a + b)[i] == a[i] && (a + b)[|a| + j] == b[j];
    }
    forall i, j | 0 <= i < j < |b| ensures b[i].key != b[j].key {
      assert (a + b)[|a| + i] == b[i] && (a + b)[|a| + j] == b[j];
    }
    forall i, j | 0 <= i < j < |a| ensures a[i].key != a[j].key {
      assert (a + b)[i] == a[i] && (a + b)[j] == a[j];
    }
  }

  /**
   Writing sections whose keys are all distinct, and distinct from those of
   `m`, lays them out after `m` back to back.
   */
  lemma {:induction false} WriteFreshSections(m: Properties, sections: seq<Properties>)
    requires DistinctKeys(m + Flatten(sections))
    ensures WriteSections(m, sections) == m + Flatten(sections)
    decreases |sections|
  {
    if sections != [] {
      var s0, rest := sections[0], sections[1..];
      assert m + Flatten(sections) == (m + s0) + Flatten(rest);
      DistinctSplit(m + s0, Flatten(rest));
      DistinctSplit(m, s0);
      PutAllFresh(m, s0);
      WriteFreshSections(m + s0, rest);
    }
  }

  /** The keys written unconditionally: logging, web and graceful exit. */
  const AlwaysWritten: Properties := LoggingDefaults + WebDefaults + GracefulExitDefaults

  /** Within each section, keys are distinct. */
  lemma SectionsDistinct(dbMigrate: bool)
    ensures DistinctKeys(LoggingDefaults) && DistinctKeys(WebDefaults)
    ensures DistinctKeys(GracefulExitDefaults) && DistinctKeys(DbMigrationDefaults)
    ensures DistinctKeys(ConfigActuator(dbMigrate))
  {
  }

  lemma AlwaysWrittenDistinct()
    ensures DistinctKeys(AlwaysWritten)
  {
    SectionsDistinct(false);
    FixedSectionsDisjoint();
    ConcatDistinct(LoggingDefaults, WebDefaults);
    DisjointAfter(LoggingDefaults, WebDefaults, GracefulExitDefaults);
    ConcatDistinct(LoggingDefaults + WebDefaults, GracefulExitDefaults);
  }

  /** The sections written unconditionally share no key. */
  lemma FixedSectionsDisjoint()
    ensures DisjointKeys(LoggingDefaults, WebDefaults)
    ensures DisjointKeys(LoggingDefaults, GracefulExitDefaults)
    ensures DisjointKeys(WebDefaults, GracefulExitDefaults)
  {
  }

  /** The actuator section shares no key with any other section. */
  lemma ActuatorSectionDisjoint(dbMigrate: bool)
    ensures DisjointKeys(LoggingDefaults, ConfigActuator(dbMigrate))
    ensures DisjointKeys(WebDefaults, ConfigActuator(dbMigrate))
    ensures DisjointKeys(GracefulExitDefaults, ConfigActuator(dbMigrate))
    ensures DisjointKeys(ConfigActuator(dbMigrate), DbMigrationDefaults)
  {
  }

  /** The migration section shares no key with the unconditional sections. */
  lemma MigrationSectionDisjoint()
    ensures DisjointKeys(LoggingDefaults, DbMigrationDefaults)
    ensures DisjointKeys(WebDefaults, DbMigrationDefaults)
    ensures DisjointKeys(GracefulExitDefaults, DbMigrationDefaults)
  {
  }

  /** Disjointness from two maps is disjointness from their concatenation. */
  lemma DisjointAfter(a: Properties, b: Properties, c: Properties)
    requires DisjointKeys(a, c) && DisjointKeys(b, c)
    ensures DisjointKeys(a + b, c)
  {
    forall i, j | 0 <= i < |a + b| && 0 <= j < |c| ensures (a + b)[i].key != c[j].key {
      if i >= |a| {
        assert (a + b)[i] == b[i - |a|];
      }
    }
  }

  lemma OptionalSectionsDisjoint(dbMigrate: bool)
    ensures DisjointKeys(AlwaysWritten, ConfigActuator(dbMigrate))
    ensures DisjointKeys(AlwaysWritten, DbMigrationDefaults)
    ensures DisjointKeys(ConfigActuator(dbMigrate), DbMigrationDefaults)
  {
    ActuatorSectionDisjoint(dbMigrate);
    MigrationSectionDisjoint();
    DisjointAfter(LoggingDefaults, WebDefaults, ConfigActuator(dbMigrate));
    DisjointAfter(LoggingDefaults + WebDefaults, GracefulExitDefaults, ConfigActuator(dbMigrate));
    DisjointAfter(LoggingDefaults, WebDefaults, DbMigrationDefaults);
    DisjointAfter(LoggingDefaults + WebDefaults, GracefulExitDefaults, DbMigrationDefaults);
  }

  /**
   Because the sub-maps have disjoint keys, writing them one after another
   lays them out back to back: logging, web, graceful exit, then actuator and
   database migration when they apply.
   */
  lemma DefaultsLayout(c: Config, l: Ledger)
    ensures var actuator := HasDependency(l, ImplementationOnly, ActuatorNotation);
      var db := c.frameworkDbMigrate;
      var r := ConfigDefaults(c, l);
      && r == AlwaysWritten
              + (if actuator then ConfigActuator(db) else [])
              + (if db then DbMigrationDefaults else [])
      && DistinctKeys(r)
      && |r| == 19 + (if actuator then 5 else 0) + (if db then 3 else 0)
  {
    var actuator := HasDependency(l, ImplementationOnly, ActuatorNotation);
    var db := c.frameworkDbMigrate;
    var act := if actuator then ConfigActuator(db) else [];
    var fly := if db then DbMigrationDefaults else [];
    var sections := DefaultSections(actuator, db);
    var flat := AlwaysWritten + act + fly;
    assert Flatten(sections) == flat by {
      FlattenSections(actuator, db);
    }
    AlwaysWrittenDistinct();
    SectionsDistinct(db);
    OptionalSectionsDisjoint(db);
    assert DisjointKeys(AlwaysWritten, act);
    ConcatDistinct(AlwaysWritten, act);
    assert DisjointKeys(act, fly);
    DisjointAfter(AlwaysWritten, act, fly);
    ConcatDistinct(AlwaysWritten + act, fly);
    assert [] + flat == flat;
    WriteFreshSections([], sections);
  }

  /**
   What the managed defaults hold: the web port and graceful shutdown always,
   the management keys exactly when `l` holds the actuator, the migration keys
   exactly when migrations are enabled.
   */
  lemma DefaultsContent(c: Config, l: Ledger)
    ensures var props := ConfigDefaults(c, l);
      var actuator := HasDependency(l, ImplementationOnly, ActuatorNotation);
      && Get(props, "server.port") == Some("8080")
      && Get(props, "server.shutdown") == Some("graceful")
      && (HasKey(props, "management.server.port") <==> actuator)
      && (actuator ==> Get(props, "management.server.port") == Some("8081"))
      && (actuator ==> Get(props, "management.endpoints.web.exposure.include")
                       == Some("health,heapdump,prometheus" + (if c.frameworkDbMigrate then ",flyway" else "")))
      && (HasKey(props, "spring.flyway.locations") <==> c.frameworkDbMigrate)
  {
    var db := c.frameworkDbMigrate;
    var actuator := HasDependency(l, ImplementationOnly, ActuatorNotation);
    DefaultsLayout(c, l);
    OptionalSectionsDisjoint(db);
    SectionKeys(db);
    ExposureInclude(db);
    LayoutContent(AlwaysWritten, ConfigActuator(db), DbMigrationDefaults, actuator, db, ConfigDefaults(c, l));
  }

  /** The lookups `DefaultsContent` states, for any sections laid out as the defaults are. */
  lemma LayoutContent(w: Properties, x: Properties, f: Properties, withX: bool, withF: bool, props: Properties)
    requires props == w + (if withX then x else []) + (if withF then f else [])
    requires DistinctKeys(props)
    requires DisjointKeys(w, x) && DisjointKeys(w, f) && DisjointKeys(x, f)
    requires |w| == 19 && |x| == 5 && |f| == 3
    requires w[6] == Property("server.port", "8080") && w[17] == Property("server.shutdown", "graceful")
    requires x[1].key == "management.server.port" && f[2].key == "spring.flyway.locations"
    ensures Get(props, "server.port") == Some("8080")
    ensures Get(props, "server.shutdown") == Some("graceful")
    ensures HasKey(props, "management.server.port") <==> withX
    ensures withX ==> Get(props, x[1].key) == Some(x[1].value) && Get(props, x[2].key) == Some(x[2].value)
    ensures HasKey(props, "spring.flyway.locations") <==> withF
  {
    var mid := if withX then x else [];
    var tail := if withF then f else [];
    assert props == w + (mid + tail);
    LookupFirst(w, mid + tail, 6);
    LookupFirst(w, mid + tail, 17);
    NotKeyOf(x, f, 1);
    NotKeyOf(w, x, 1);
    NotKeyOf(w, f, 2);
    assert !HasKey(tail, x[1].key);
    OptionalKey(w, x, tail, 1, withX);
    HasKeyConcat(w + mid, tail, f[2].key);
    HasKeyConcat(w, mid, f[2].key);
    if withF {
      assert tail[2] == f[2];
    }
    if withX {
      LookupMiddle(w, x, tail, 1);
      LookupMiddle(w, x, tail, 2);
    }
  }

  /** An entry of the middle part of a well formed map is what a lookup finds. */
  lemma LookupMiddle(a: Properties, b: Properties, c: Properties, j: nat)
    requires DistinctKeys(a + b + c) && j < |b|
    ensures Get(a + b + c, b[j].key) == Some(b[j].value)
  {
    assert (a + b + c)[|a| + j] == b[j];
    GetAt(a + b + c, |a| + j);
  }

  /** The keys the defaults are looked up by, where they sit in their sections. */
  lemma SectionKeys(dbMigrate: bool)
    ensures AlwaysWritten[6] == Property("server.port", "8080")
    ensures AlwaysWritten[17] == Property("server.shutdown", "graceful")
    ensures ConfigActuator(dbMigrate)[1] == Property("management.server.port", "8081")
    ensures ConfigActuator(dbMigrate)[2]
         == Property("management.endpoints.web.exposure.include", JoinToString(ExposedEndpoints(dbMigrate), ","))
    ensures DbMigrationDefaults[2].key == "spring.flyway.locations"
  {
  }

  /** An entry of the leading part of a well formed map is what a lookup finds. */
  lemma LookupFirst(a: Properties, b: Properties, i: nat)
    requires DistinctKeys(a + b) && i < |a|
    ensures Get(a + b, a[i].key) == Some(a[i].value)
  {
    assert (a + b)[i] == a[i];
    GetAt(a + b, i);
  }

  /** A key of `b` is not a key of a map disjoint from `b`. */
  lemma NotKeyOf(a: Properties, b: Properties, j: nat)
    requires DisjointKeys(a, b) && j < |b|
    ensures !HasKey(a, b[j].key)
  {
  }

  /**
   A key that only the optional middle section `x` has is in the map exactly
   when that section is written.
   */
  lemma OptionalKey(w: Properties, x: Properties, f: Properties, j: nat, present: bool)
    requires j < |x| && DisjointKeys(w, x) && !HasKey(f, x[j].key)
    ensures HasKey(w + (if present then x else []) + f, x[j].key) <==> present
  {
    var k := x[j].key;
    var mid := if present then x else [];
    HasKeyConcat(w + mid, f, k);
    HasKeyConcat(w, mid, k);
  }

  /**
   What an application's managed properties file holds, once the ledger has
   been threaded through the configuration: the management keys appear
   exactly when the actuator was declared before the module ran or the module added it
   for a metrics-enabled web project.
   */
  lemma ApplicationDefaults(c: Config, v: Versions, l: Ledger)
    ensures var props := ConfigDefaults(c, Declare(l, ConfigureApplication(c, v, l)));
      var actuator := HasDependency(l, ImplementationOnly, ActuatorNotation)
        || (c.frameworkMetrics && HasDependency(l, ImplementationOnly, WebStarterNotation));
      && Get(props, "server.port") == Some("8080")
      && Get(props, "server.shutdown") == Some("graceful")
      && (HasKey(props, "management.server.port") <==> actuator)
      && (actuator ==> Get(props, "management.server.port") == Some("8081"))
      && (actuator ==> Get(props, "management.endpoints.web.exposure.include")
                       == Some("health,heapdump,prometheus" + (if c.frameworkDbMigrate then ",flyway" else "")))
      && (HasKey(props, "spring.flyway.locations") <==> c.frameworkDbMigrate)
      && |props| == 19 + (if actuator then 5 else 0) + (if c.frameworkDbMigrate then 3 else 0)
  {
    var l' := Declare(l, ConfigureApplication(c, v, l));
    ActuatorThreading(c, v, l);
    DefaultsContent(c, l');
    DefaultsLayout(c, l');
  }

  lemma {:induction false} FlattenAppend(a: seq<Properties>, b: seq<Properties>)
    ensures Flatten(a + b) == Flatten(a) + Flatten(b)
  {
    if a == [] {
      assert a + b == b;
    } else {
      assert (a + b)[1..] == a[1..] + b;
      assert (a + b)[0] == a[0];
      FlattenAppend(a[1..], b);
    }
  }

  lemma FlattenOne(x: Properties)
    ensures Flatten([x]) == x
  {
    assert [x][1..] == [];
  }

  lemma FlattenSections(actuator: bool, db: bool)
    ensures Flatten(DefaultSections(actuator, db))
         == AlwaysWritten
            + (if actuator then ConfigActuator(db) else [])
            + (if db then DbMigrationDefaults else [])
  {
    var always := [LoggingDefaults, WebDefaults, GracefulExitDefaults];
    var act := if actuator then [ConfigActuator(db)] else [];
    var fly := if db then [DbMigrationDefaults] else [];
    FlattenAppend(always + act, fly);
    FlattenAppend(always, act);
    assert always[1..] == [WebDefaults, GracefulExitDefaults];
    assert always[1..][1..] == [GracefulExitDefaults];
    FlattenOne(GracefulExitDefaults);
    assert Flatten(always) == AlwaysWritten;
    if actuator { FlattenOne(ConfigActuator(db)); }
    if db { FlattenOne(DbMigrationDefaults); }
  }
}

=== FILE: wrappers.dfy ===
/** Option and Result datatypes used by the planners. */
module Wrappers {

  /** An optional value: the answer of a lookup that may find nothing. */
  datatype Option<+T> = None | Some(value: T)

  /** Either a computed value or an error message. */
  datatype Result<+R, +E> = Success(value: R) | Failure(error: E)
}
